=== FILE: README.md ===
# User record lifecycle of the ATM account store, in Dafny

This project models the user operations of a small ATM-style account
system: creating a user, reading users, updating a user and deleting a
user together with the user's transactions. The store holds two tables:

- `users: map<int, User>` maps each id to its username, hashed password and balance.
- `txOwner: map<int, int>` maps each transaction id to its owner's id (`user_id`).

Each operation has two parts in the model:

- A pure function (`CreateOutcome`, `UpdateOutcome`, `DeleteOutcome`) gives the
  reported result and the committed tables afterwards. Its `ensures` clauses
  state what the operation promises.
- An imperative method (`CreateUser`, `UpdateUser`, `DeleteUser`) follows
  `create_user`, `update_user` or `delete_user` step by step. It writes into a session (`Store.Database`) and then
  commits or rolls back. It is proved to produce exactly that function's
  result and committed state.

Lemmas connect the operations. Each mutating operation keeps usernames unique
and keeps every transaction's owner stored. Other lemmas cover a create
followed by a lookup, a create repeated with the same name, an update followed
by a read, a rename to one's own name, and a delete followed by a lookup.

Modules: `Options` (Option), `Coerce` (Python's `float(...)` as a partial
function; `str(int)`), `Ids` (extremes and ascending listing of id sets),
`Store` (entities, failures, the session class, id allocation), `Read`,
`Create`, `Update`, `Delete`.

Collaborators become parameters:

- the password hash function used by a call: `hash: string -> string`;
- whether the store accepts the commit: `commitOk: bool`.

The session starts each call with no pending change. It ends each call with
no pending change: committed, rolled back, or untouched because a check
failed first.

Modelling choices where the code leaves the store to decide:

- The store gives a new user the id one above the largest id in use (1 when
  none is positive). Every property proved uses only that the id is fresh.
- `filter_by(...).first()` returns the matching user with the smallest id.
  With unique usernames there is only one match.
- `query.all()` returns rows in ascending id order. No property depends on
  this order.

A balance that `float` refuses is not checked before any write. The
conversion runs inside the same `try` block as the writes (create.py:33,
update.py:51). So the code rolls back and reports it with the store-error
prefix ("Error creating user: ", "Error updating user: "). It does not
report it as a validation failure, and the model does the same.

## Model

| member | source | states |
|---|---|---|
| `Coerce.ToFloat` | create.py:33 | `float(v)` as a partial function: a float converts to itself, and `None` is refused (the path on which the caller rolls back) |
| `Coerce.FloatOfIntString` | update.py:51 | converting the text of an integer with `float` gives the same value as converting the integer itself |
| `Store.MessagesDistinguishFailures` | update.py:24-56 | the failure texts "User not found", "Username already exists", "No changes specified" and the error prefixes are pairwise different |
| `Store.NextId` | create.py:37-38 | the id the store assigns on insert is not in use and is above every id in use |
| `Store.Database.Commit` | delete.py:33 | commit makes the session's rows the committed state exactly when the store accepts it, and leaves the session's rows as they were |
| `Store.Database.Rollback` | delete.py:37-39 | rollback discards every pending change: the session again shows the committed state, which is unchanged |
| `Read.UserById` | read.py:3-14 | returns the user stored under the id, and None exactly when the id is absent |
| `Read.UserByUsername` | read.py:17-28 | returns a stored user whose username is the argument (the smallest such id), and None exactly when no user holds it |
| `Read.UsernameLookupDeterministic` | read.py:28 | when usernames are unique, the lookup returns the one user holding the name |
| `Read.AllUsers` | read.py:31-41 | lists every stored user with its id, each exactly once (ids strictly increasing, length equals the number of users), and nothing else |
| `Read.RowById` | read.py:3-14 | `get_user_by_id` with the returned user's id attached, as the display reads it: None exactly when the id is absent, otherwise the stored user with its id |
| `Read.UserReport` | read.py:44-57 | no user gives the not-found report; a user gives its id, username, balance and the number of transactions it owns |
| `Create.CreateOutcome` | create.py:6-45 | "Username already exists" exactly when the name is held. Success exactly when the name is free, the balance converts and the commit is accepted. A store error exactly when the name is free but the balance does not convert or the commit fails. Every failure leaves the store unchanged. Success adds one user under a fresh id, with the given username, the hashed password and the converted balance (0.0 when omitted), and nothing else changes |
| `Create.CreateUser` | create.py:6-45 | the check, hashing, conversion, add and commit (or rollback) report and commit exactly what `CreateOutcome` says; the session ends clean |
| `Create.CreatePreservesValid` | create.py:21-38 | creating a user keeps usernames unique and every transaction's owner stored |
| `Create.CreatedUserIsFound` | create.py:30-38 | with a free name, a convertible balance and an accepted commit, creation succeeds, the new user is what a lookup by username returns, and its balance is 0.0 when none was given |
| `Create.CreateTwiceFails` | create.py:21-23 | after a successful creation, creating the same username again reports "Username already exists" and changes nothing |
| `Update.UpdateOutcome` | update.py:5-63 | "User not found" exactly when the id is absent. "Username already exists" exactly when the first holder of the new name is another user, so another user holds it. "No changes specified" exactly when no field is given. The update succeeds exactly when the user exists, the rename is not refused, the balance converts, some field is given and the commit is accepted. Every failure, including the rollback after a failed balance conversion that follows a rename or password write, leaves the store unchanged. Success changes only user `id`, and only its given fields: the new username, the hashed password, the converted balance |
| `Update.UpdateUser` | update.py:21-63 | the in-session field writes with the `changes_made` flag, then the commit or rollback, report and commit exactly what `UpdateOutcome` says; the session ends clean |
| `Update.ConflictMeansHeldByOther` | update.py:33-35 | with unique usernames, the rename check (first holder's id differs from the user's) fails exactly when some other user holds the name |
| `Update.RenameToOwnName` | update.py:34 | renaming a user to its own current name is not a conflict; it succeeds and leaves the store as it was |
| `Update.RenameOntoOtherFails` | update.py:30-35 | renaming onto a name held by another user reports "Username already exists" and changes nothing, whatever other fields are given |
| `Update.UpdatePreservesValid` | update.py:30-59 | updating a user keeps usernames unique and every transaction's owner stored |
| `Update.BalanceUpdateIsRead` | update.py:49-59 | after a balance update, a lookup by id returns the user with the converted balance and its other fields unchanged |
| `Update.NoFieldsNoChange` | update.py:55-56 | with no recognised field, the update of an existing user reports "No changes specified" and changes nothing |
| `Delete.OwnedList` | delete.py:25-26 | the fetched transaction list holds exactly the user's transactions, each once, so its length is their number |
| `Delete.DeleteOutcome` | delete.py:3-39 | "User not found" exactly when the id is absent. A store error exactly when the commit fails. Success exactly when the user exists and the commit is accepted. Failures leave the store unchanged. Success removes exactly the user and exactly its transactions, leaves every other user and transaction as it was, and reports the username read before deleting and the number of transactions removed |
| `Delete.DeleteSuccessMessage` | delete.py:22-35 | a successful deletion's message names the username read before deleting, and its number reads back as the count of transactions removed |
| `Delete.ReportMatchesDeletion` | read.py:51-57 | the display after a lookup by id shows "User not found" exactly when a deletion finds no user; otherwise it shows the username and transaction count that a deletion would report |
| `Delete.DeleteUser` | delete.py:16-39 | reading the username, fetching and deleting the transactions, deleting the user, then commit or rollback report and commit exactly what `DeleteOutcome` says; the session ends clean |
| `Delete.DeleteAll` | delete.py:28-29 | the loop deletes exactly the listed transactions from the session; after k steps the first k are gone and nothing else changed |
| `Delete.DeletePreservesValid` | delete.py:25-33 | deleting a user keeps usernames unique and leaves no transaction whose owner is missing |
| `Delete.DeletedUserIsGone` | delete.py:25-35 | after a successful delete the user is not found, no transaction of it remains, the transaction table shrank by the reported count and the user table by one |

## Left out

- Console output (`print`), the unused `flash` import in create.py and the example blocks under `__main__` are not modelled.
- The text of caught exceptions (`str(e)`) is not modelled. A store error carries only the operation, and its message only the fixed prefix.
- The password hash is a parameter, because werkzeug salts it at random. The model cannot show that a stored hash differs from the plaintext, because nothing in the code guarantees it.
- Balances are mathematical reals. Float rounding, overflow, `inf`, `nan` and the two-decimal currency formatting are not modelled.
- Coerce.ToFloat: for strings it accepts only the white space C `isspace` recognises (space, and tab to carriage return), an optional sign and an ASCII decimal numeral (`12`, `-3.5`, `.5`, `7.`). Python also accepts exponents, `inf`, `nan`, digit underscores, non-ASCII white space (such as U+0085, U+00A0 and U+2000 to U+200A) and non-ASCII decimal digits (such as Arabic-Indic digits). The model treats these as conversion failures, so such a balance gives a store error in the model where the code succeeds.
- Coerce.ToFloat: the argument types covered are float, int, bool, str and None. `float` also accepts `Decimal`, `Fraction`, `bytes`, `bytearray` and objects with `__float__` or `__index__`. These are not modelled.
- Only the commit is modelled as able to fail, apart from `float`. Inside their `try` blocks, create, update and delete also have earlier steps that may raise. Examples are `generate_password_hash` and the `User(...)` constructor in create.py:27-30, the writes in update.py, and the query and deletes in delete.py:25-32. Each of these rolls back to the same committed state with the same store-error prefix. So `commitOk` stands for "every store step after the checks succeeds".
- The update keywords are a record with one optional slot each for username, password and balance. The code ignores other keywords. Non-string usernames and passwords are not modelled.
- The Transaction table keeps only each transaction's owner. Its other columns are not modelled.
- Concurrency is not modelled: two callers renaming to the same name at once, and isolation levels. The code does nothing to coordinate them.
- Object identity is not modelled. A returned user is a value, not the session's object.
- Each call starts with a session holding no pending changes. Pending changes left by an earlier caller are not modelled.

=== FILE: coerce.dfy ===
/**
 * Python's `float(...)` conversion, as the user operations apply it to
 * balances, modelled as a partial function: an argument that Python
 * refuses (it raises ValueError or TypeError) yields None, so the
 * caller's exception path is visible in the model.  Also the decimal
 * rendering of integers (Python's `str(int)`), used in messages.
 */
module Coerce {
  import opened Options

  /** The argument types of a balance that the model covers. */
  datatype PyValue =
    | PyFloat(x: real)
    | PyInt(n: int)
    | PyBool(b: bool)
    | PyStr(s: string)
    | PyNone

  /** `float(v)`: None where Python raises. */
  function ToFloat(v: PyValue): (r: Option<real>)
    ensures v.PyFloat? ==> r == Some(v.x)
    ensures v.PyNone? ==> r.None?
  {
    match v
    case PyFloat(x) => Some(x)
    case PyInt(n) => Some(n as real)
    case PyBool(b) => Some(if b then 1.0 else 0.0)
    case PyStr(s) => ParseFloat(s)
    case PyNone => None
  }

  predicate IsDigit(c: char) {
    '0' <= c <= '9'
  }

  predicate AllDigits(s: string) {
    forall i :: 0 <= i < |s| ==> IsDigit(s[i])
  }

  /** C `isspace`: the white space `float` strips (narrower than `str.strip`). */
  predicate IsSpace(c: char) {
    c == ' ' || '\t' <= c <= '\r'
  }

  function DigitValue(c: char): (d: nat)
    requires IsDigit(c)
    ensures d < 10
  {
    (c as int - '0' as int) as nat
  }

  function DigitChar(d: nat): (c: char)
    requires d < 10
    ensures IsDigit(c) && DigitValue(c) == d
  {
    ('0' as int + d) as char
  }

  /** The value of a string of decimal digits, most significant first. */
  function DigitsValue(s: string): nat
    requires AllDigits(s)
  {
    if s == [] then 0 else DigitsValue(s[..|s| - 1]) * 10 + DigitValue(s[|s| - 1])
  }

  function Pow10(n: nat): (p: nat)
    ensures p >= 1
  {
    if n == 0 then 1 else 10 * Pow10(n - 1)
  }

  /** The first position of `c` in `s`, if any. */
  function Find(s: string, c: char): (r: Option<nat>)
    ensures r.None? <==> c !in s
    ensures r.Some? ==> r.value < |s| && s[r.value] == c && c !in s[..r.value]
  {
    if s == [] then None
    else if s[0] == c then Some(0)
    else
      match Find(s[1..], c)
      case None => None
      case Some(i) =>
        assert s[..i + 1] == [s[0]] + s[1..][..i];
        Some(i + 1)
  }

  /** `s` without leading and trailing white space (Python strips before parsing). */
  function Trim(s: string): (t: string)
    ensures |t| <= |s|
    ensures t != [] ==> !IsSpace(t[0]) && !IsSpace(t[|t| - 1])
  {
    if s == [] then []
    else if IsSpace(s[0]) then Trim(s[1..])
    else if IsSpace(s[|s| - 1]) then Trim(s[..|s| - 1])
    else s
  }

  /** `digits`, `digits.`, `.digits` or `digits.digits`, with at least one digit. */
  function ParseUnsigned(s: string): Option<real> {
    match Find(s, '.')
    case None =>
      if s != [] && AllDigits(s) then Some(DigitsValue(s) as real) else None
    case Some(i) =>
      var whole, frac := s[..i], s[i + 1..];
      if AllDigits(whole) && AllDigits(frac) && |whole| + |frac| > 0
      then Some(DigitsValue(whole) as real + DigitsValue(frac) as real / Pow10(|frac|) as real)
      else None
  }

  /** `float(s)` for a string: optional white space, an optional sign, a decimal numeral. */
  function ParseFloat(s: string): Option<real> {
    var t := Trim(s);
    if t != [] && t[0] == '-' then
      match ParseUnsigned(t[1..])
      case Some(x) => Some(-x)
      case None => None
    else if t != [] && t[0] == '+' then ParseUnsigned(t[1..])
    else ParseUnsigned(t)
  }

  /** Python's `str(n)` for a non-negative integer. */
  function NatString(n: nat): (s: string)
    ensures s != [] && AllDigits(s)
  {
    if n < 10 then [DigitChar(n)] else NatString(n / 10) + [DigitChar(n % 10)]
  }

  /** Python's `str(n)` for any integer. */
  function IntString(n: int): string {
    if n < 0 then "-" + NatString(-n) else NatString(n)
  }

  lemma {:induction false} NatStringValue(n: nat)
    ensures DigitsValue(NatString(n)) == n
  {
    if n >= 10 {
      var s := NatString(n);
      NatStringValue(n / 10);
      assert s[..|s| - 1] == NatString(n / 10);
    }
  }

  lemma NoDotInDigits(s: string)
    requires AllDigits(s)
    ensures '.' !in s
  {
  }

  /** A rendered natural number reads back as itself. */
  lemma ParseNatString(m: nat)
    ensures ParseUnsigned(NatString(m)) == Some(m as real)
  {
    var digits := NatString(m);
    NatStringValue(m);
    NoDotInDigits(digits);
  }

  lemma FloatOfDigits(digits: string)
    requires digits != [] && AllDigits(digits)
    ensures ParseFloat(digits) == ParseUnsigned(digits)
  {
  }

  lemma FloatOfNegatedDigits(digits: string, x: real)
    requires digits != [] && AllDigits(digits)
    requires ParseUnsigned(digits) == Some(x)
    ensures ParseFloat("-" + digits) == Some(-x)
  {
  }

  /** The text of a negative integer converts back to its value. */
  lemma NegativeIntString(n: int)
    requires n < 0
    ensures ParseFloat(IntString(n)) == Some(n as real)
  {
    var digits := NatString(-n);
    assert IntString(n) == "-" + digits;
    ParseNatString(-n);
    FloatOfNegatedDigits(digits, (-n) as real);
  }

  /** The text of a non-negative integer converts back to its value. */
  lemma NonNegativeIntString(n: int)
    requires n >= 0
    ensures ParseFloat(IntString(n)) == Some(n as real)
  {
    ParseNatString(n);
    FloatOfDigits(NatString(n));
  }

  /** Rendering an integer and converting the text back with `float` gives the integer's value. */
  lemma {:induction false} FloatOfIntString(n: int)
    ensures ToFloat(PyStr(IntString(n))) == ToFloat(PyInt(n)) == Some(n as real)
  {
    if n < 0 {
      NegativeIntString(n);
    } else {
      NonNegativeIntString(n);
    }
  }
}

=== FILE: create.dfy ===
/**
 * Creating a user: the username must be unused; the password is stored
 * hashed and the initial balance (0.0 when omitted) converted with
 * `float`; the new row is added to the session and committed, and any
 * failure after the check rolls the session back.
 */
module Create {
  import opened Options
  import opened Coerce
  import opened Store
  import opened Read

  /** The balance argument, `0.0` when the caller leaves it out. */
  function BalanceArgument(initialBalance: Option<PyValue>): PyValue {
    initialBalance.GetOr(PyFloat(0.0))
  }

  /**
   * What creating a user reports and leaves committed, given the store's
   * hash function for this call and whether the store accepts the commit.
   */
  function CreateOutcome(t: Tables, username: string, password: string, initialBalance: Option<PyValue>,
                         hash: string -> string, commitOk: bool): (s: Step<Row>)
    ensures s.result.Err? ==> s.after == t
    ensures s.result == Err(UsernameTaken) <==> Taken(t.users, username)
    ensures s.result == Err(StoreError(Creating)) <==>
      !Taken(t.users, username) && (ToFloat(BalanceArgument(initialBalance)).None? || !commitOk)
    ensures s.result.Ok? <==>
      !Taken(t.users, username) && ToFloat(BalanceArgument(initialBalance)).Some? && commitOk
    ensures s.result.Ok? ==>
      && s.result.value.id !in t.users
      && s.result.value.user.username == username
      && s.result.value.user.password == hash(password)
      && Some(s.result.value.user.balance) == ToFloat(BalanceArgument(initialBalance))
      && s.after == Tables(t.users[s.result.value.id := s.result.value.user], t.txOwner)
      && |s.after.users| == |t.users| + 1
  {
    if UserByUsername(t.users, username).Some? then
      Step(Err(UsernameTaken), t)
    else
      var hashed := hash(password);
      match ToFloat(BalanceArgument(initialBalance))
      case None => Step(Err(StoreError(Creating)), t)
      case Some(balance) =>
        var id := NextId(t.users);
        var user := User(username, hashed, balance);
        if commitOk then Step(Ok(Row(id, user)), Tables(t.users[id := user], t.txOwner))
        else Step(Err(StoreError(Creating)), t)
  }

  /** `create_user(db, User, username, password, initial_balance)`. */
  method CreateUser(db: Database, username: string, password: string, initialBalance: Option<PyValue>,
                    hash: string -> string, commitOk: bool) returns (r: Result<Row>)
    requires db.Clean()
    modifies db
    ensures db.Clean()
    ensures Step(r, db.committed) == CreateOutcome(old(db.committed), username, password, initialBalance, hash, commitOk)
  {
    var existing := UserByUsername(db.users, username);
    if existing.Some? {
      return Err(UsernameTaken);
    }
    var hashed := hash(password);
    var balance := ToFloat(BalanceArgument(initialBalance));
    if balance.None? {
      db.Rollback();
      return Err(StoreError(Creating));
    }
    var newUser := User(username, hashed, balance.value);
    var id := NextId(db.users);
    db.users := db.users[id := newUser];
    var committed := db.Commit(commitOk);
    if !committed {
      db.Rollback();
      return Err(StoreError(Creating));
    }
    r := Ok(Row(id, newUser));
  }

  /** Creating a user keeps usernames unique and every transaction's owner stored. */
  lemma CreatePreservesValid(t: Tables, username: string, password: string, initialBalance: Option<PyValue>,
                             hash: string -> string, commitOk: bool)
    requires Valid(t)
    ensures Valid(CreateOutcome(t, username, password, initialBalance, hash, commitOk).after)
  {
  }

  /** A created user is found by its username, with balance 0.0 when none was given. */
  lemma CreatedUserIsFound(t: Tables, username: string, password: string, initialBalance: Option<PyValue>,
                           hash: string -> string)
    requires !Taken(t.users, username)
    requires ToFloat(BalanceArgument(initialBalance)).Some?
    ensures var s := CreateOutcome(t, username, password, initialBalance, hash, true);
      && s.result.Ok?
      && UserByUsername(s.after.users, username) == Some(s.result.value)
      && (initialBalance.None? ==> s.result.value.user.balance == 0.0)
  {
    var s := CreateOutcome(t, username, password, initialBalance, hash, true);
    var row := s.result.value;
    UsernameLookupAfterInsert(t.users, row.id, row.user);
  }

  /** Adding a user under a fresh id with an unused name makes it the name's only holder. */
  lemma UsernameLookupAfterInsert(users: map<int, User>, id: int, user: User)
    requires id !in users && !Taken(users, user.username)
    ensures UserByUsername(users[id := user], user.username) == Some(Row(id, user))
  {
    var after := users[id := user];
    assert after[id].username == user.username;
  }

  /** Creating the same username again fails and changes nothing. */
  lemma CreateTwiceFails(t: Tables, username: string, password: string, initialBalance: Option<PyValue>,
                         hash: string -> string, commitOk: bool,
                         password2: string, initialBalance2: Option<PyValue>, hash2: string -> string, commitOk2: bool)
    requires CreateOutcome(t, username, password, initialBalance, hash, commitOk).result.Ok?
    ensures var after := CreateOutcome(t, username, password, initialBalance, hash, commitOk).after;
      CreateOutcome(after, username, password2, initialBalance2, hash2, commitOk2) == Step(Err(UsernameTaken), after)
  {
    var s := CreateOutcome(t, username, password, initialBalance, hash, commitOk);
    assert s.after.users[s.result.value.id].username == username;
  }
}

=== FILE: delete.dfy ===
/**
 * Deleting a user: every transaction the user owns is deleted one by
 * one, then the user, and the whole is committed at once; a failure
 * rolls every deletion back.
 */
module Delete {
  import opened Coerce
  import opened Ids
  import opened Store
  import opened Read

  /** What a successful deletion reports: the username read before deleting, and the transactions removed. */
  datatype Deletion = Deletion(username: string, count: nat)

  /** The success message. */
  function DeletedMessage(d: Deletion): string {
    "User '" + d.username + "' and " + NatString(d.count) + " associated transactions deleted successfully"
  }

  /** `Transaction.query.filter_by(user_id=id).all()`, in ascending transaction id. */
  function OwnedList(txOwner: map<int, int>, id: int): (txs: seq<int>)
    ensures forall tx :: tx in txs <==> tx in txOwner && txOwner[tx] == id
    ensures |txs| == |OwnedBy(txOwner, id)|
    ensures StrictlyIncreasing(txs)
  {
    Ascending(OwnedBy(txOwner, id))
  }

  /** What deleting user `id` reports and leaves committed. */
  function DeleteOutcome(t: Tables, id: int, commitOk: bool): (s: Step<Deletion>)
    ensures s.result.Err? ==> s.after == t
    ensures s.result == Err(NotFound) <==> id !in t.users
    ensures s.result == Err(StoreError(Deleting)) <==> id in t.users && !commitOk
    ensures s.result.Ok? <==> id in t.users && commitOk
    ensures s.result.Ok? ==>
      && id in t.users
      && s.result.value == Deletion(t.users[id].username, |OwnedBy(t.txOwner, id)|)
      && id !in s.after.users
      && (forall other :: other in s.after.users <==> other in t.users && other != id)
      && (forall other :: other in s.after.users ==> s.after.users[other] == t.users[other])
      && (forall tx :: tx in s.after.txOwner <==> tx in t.txOwner && t.txOwner[tx] != id)
      && (forall tx :: tx in s.after.txOwner ==> s.after.txOwner[tx] == t.txOwner[tx])
  {
    if id !in t.users then Step(Err(NotFound), t)
    else if !commitOk then Step(Err(StoreError(Deleting)), t)
    else
      var owned := OwnedBy(t.txOwner, id);
      Step(Ok(Deletion(t.users[id].username, |owned|)), Tables(t.users - {id}, t.txOwner - owned))
  }

  /** `delete_user(db, User, Transaction, user_id)`. */
  method DeleteUser(db: Database, userId: int, commitOk: bool) returns (r: Result<Deletion>)
    requires db.Clean()
    modifies db
    ensures db.Clean()
    ensures Step(r, db.committed) == DeleteOutcome(old(db.committed), userId, commitOk)
  {
    if userId !in db.users {
      return Err(NotFound);
    }
    var username := db.users[userId].username;
    var transactions := OwnedList(db.txOwner, userId);
    var transactionCount := |transactions|;
    DeleteAll(db, transactions);
    assert Elements(transactions) == OwnedBy(old(db.txOwner), userId);
    db.users := db.users - {userId};
    var committed := db.Commit(commitOk);
    if !committed {
      db.Rollback();
      return Err(StoreError(Deleting));
    }
    r := Ok(Deletion(username, transactionCount));
  }

  /** `for transaction in transactions: db.session.delete(transaction)`. */
  method DeleteAll(db: Database, transactions: seq<int>)
    modifies db
    ensures db.txOwner == old(db.txOwner) - Elements(transactions)
    ensures db.users == old(db.users) && db.committed == old(db.committed)
  {
    ghost var original := db.txOwner;
    for i := 0 to |transactions|
      invariant db.users == old(db.users) && db.committed == old(db.committed)
      invariant db.txOwner == original - Elements(transactions[..i])
    {
      db.txOwner := db.txOwner - {transactions[i]};
      RemoveNext(original, transactions, i);
    }
    assert transactions[..|transactions|] == transactions;
  }

  /** Deleting a user keeps usernames unique and leaves no transaction without its owner. */
  lemma DeletePreservesValid(t: Tables, id: int, commitOk: bool)
    requires Valid(t)
    ensures Valid(DeleteOutcome(t, id, commitOk).after)
  {
  }

  /** After a deletion the user is not found and none of its transactions remains; the count is what was removed. */
  lemma {:induction false} DeletedUserIsGone(t: Tables, id: int)
    requires id in t.users
    ensures var s := DeleteOutcome(t, id, true);
      && UserById(s.after.users, id).None?
      && OwnedBy(s.after.txOwner, id) == {}
      && |s.after.txOwner| + s.result.value.count == |t.txOwner|
      && |s.after.users| + 1 == |t.users|
  {
  }

  /**
   * The message of a successful deletion names the user as read before
   * deleting, and its number is the count of transactions removed.
   */
  lemma DeleteSuccessMessage(t: Tables, id: int)
    requires id in t.users
    ensures var s := DeleteOutcome(t, id, true);
      && s.result.Ok?
      && exists digits :: AllDigits(digits) && DigitsValue(digits) == |OwnedBy(t.txOwner, id)|
           && DeletedMessage(s.result.value)
              == "User '" + t.users[id].username + "' and " + digits + " associated transactions deleted successfully"
  {
    var n := |OwnedBy(t.txOwner, id)|;
    NatStringValue(n);
    assert DeletedMessage(DeleteOutcome(t, id, true).result.value)
      == "User '" + t.users[id].username + "' and " + NatString(n) + " associated transactions deleted successfully";
  }

  /**
   * The user display after a lookup by id shows the user that a deletion
   * would report, with the number of transactions it would remove; it
   * shows the not-found line exactly when the deletion finds no user.
   */
  lemma ReportMatchesDeletion(t: Tables, id: int)
    ensures var r := UserReport(t, RowById(t.users, id));
      var d := DeleteOutcome(t, id, true).result;
      && (r.Missing? <==> d == Err(NotFound))
      && (r.Report? ==> d.Ok? && r.username == d.value.username && r.transactions == d.value.count)
  {
  }

  /** The ids listed in `s`. */
  function Elements(s: seq<int>): (r: set<int>)
    ensures forall x :: x in r <==> x in s
  {
    set x | x in s
  }

  /** Deleting the next listed transaction extends the deleted prefix by one. */
  lemma RemoveNext(m: map<int, int>, s: seq<int>, i: nat)
    requires i < |s|
    ensures m - Elements(s[..i]) - {s[i]} == m - Elements(s[..i + 1])
  {
  }
}

=== FILE: ids.dfy ===
/**
 * Facts about finite sets of ids: the largest and the smallest element,
 * and the elements listed in ascending order (the order in which the
 * store returns rows of a table that is scanned by id).
 */
module Ids {

  predicate IsMax(s: set<int>, m: int) {
    m in s && forall k :: k in s ==> k <= m
  }

  predicate IsMin(s: set<int>, m: int) {
    m in s && forall k :: k in s ==> m <= k
  }

  lemma {:induction false} MaxExists(s: set<int>)
    requires exists w :: w in s
    ensures exists m :: IsMax(s, m)
  {
    var x :| x in s;
    var rest := s - {x};
    if exists y :: y in rest {
      MaxExists(rest);
      var m :| IsMax(rest, m);
      var top := if x > m then x else m;
      assert IsMax(s, top) by {
        forall k | k in s ensures k <= top { if k != x { assert k in rest; } }
      }
    } else {
      assert IsMax(s, x) by {
        forall k | k in s ensures k <= x { assert k !in rest; }
      }
    }
  }

  lemma {:induction false} MinExists(s: set<int>)
    requires exists w :: w in s
    ensures exists m :: IsMin(s, m)
  {
    var x :| x in s;
    var rest := s - {x};
    if exists y :: y in rest {
      MinExists(rest);
      var m :| IsMin(rest, m);
      var bottom := if x < m then x else m;
      assert IsMin(s, bottom) by {
        forall k | k in s ensures bottom <= k { if k != x { assert k in rest; } }
      }
    } else {
      assert IsMin(s, x) by {
        forall k | k in s ensures x <= k { assert k !in rest; }
      }
    }
  }

  /** The largest element of `s`. */
  function MaxOf(s: set<int>): (m: int)
    requires exists w :: w in s
    ensures IsMax(s, m)
  {
    MaxExists(s);
    var m :| IsMax(s, m);
    m
  }

  /** The smallest element of `s`. */
  function MinOf(s: set<int>): (m: int)
    requires exists w :: w in s
    ensures IsMin(s, m)
  {
    MinExists(s);
    var m :| IsMin(s, m);
    m
  }

  predicate StrictlyIncreasing(r: seq<int>) {
    forall i, j :: 0 <= i < j < |r| ==> r[i] < r[j]
  }

  /** The elements of `s`, each once, smallest first. */
  function Ascending(s: set<int>): (r: seq<int>)
    ensures forall x :: x in r <==> x in s
    ensures StrictlyIncreasing(r)
    ensures |r| == |s|
    decreases |s|
  {
    if exists w :: w in s then
      var m := MinOf(s);
      var rest := Ascending(s - {m});
      assert forall k :: k in rest ==> m < k;
      [m] + rest
    else
      assert s == {};
      []
  }
}

=== FILE: options.dfy ===
/** The optional value used for "None" results of queries and of coercions. */
module Options {

  datatype Option<+T> = None | Some(value: T) {

    /** The wrapped value, or `default` for None. */
    function GetOr(default: T): T {
      match this
      case Some(v) => v
      case None => default
    }
  }
}

=== FILE: read.dfy ===
/**
 * The read-only queries: a user by id, a user by username, every user,
 * and the report the user display prints.  They are functions of the
 * tables, so none of them can change the store.
 */
module Read {
  import opened Options
  import opened Ids
  import opened Store

  /** `User.query.get(user_id)`. */
  function UserById(users: map<int, User>, id: int): (r: Option<User>)
    ensures r.None? <==> id !in users
    ensures r.Some? ==> id in users && users[id] == r.value
  {
    if id in users then Some(users[id]) else None
  }

  /** The lookup by id as the user display takes it: the row with its id. */
  function RowById(users: map<int, User>, id: int): (r: Option<Row>)
    ensures r.None? <==> id !in users
    ensures r.Some? ==> r.value == Row(id, users[id])
  {
    match UserById(users, id)
    case None => None
    case Some(user) => Some(Row(id, user))
  }

  /** The ids of the users whose username is `name`. */
  function Holders(users: map<int, User>, name: string): (ids: set<int>)
    ensures forall id :: id in ids <==> id in users && users[id].username == name
  {
    set id | id in users && users[id].username == name
  }

  /**
   * `User.query.filter_by(username=name).first()`: the matching user with
   * the smallest id, or None when nobody holds the name.
   */
  function UserByUsername(users: map<int, User>, name: string): (r: Option<Row>)
    ensures r.None? <==> !Taken(users, name)
    ensures r.Some? ==> r.value.id in users && users[r.value.id] == r.value.user
    ensures r.Some? ==> r.value.user.username == name
    ensures r.Some? ==> forall id :: id in users && users[id].username == name ==> r.value.id <= id
  {
    var holders := Holders(users, name);
    if exists id :: id in holders then
      var id := MinOf(holders);
      Some(Row(id, users[id]))
    else
      None
  }

  /** With unique usernames the lookup finds the one user holding the name. */
  lemma UsernameLookupDeterministic(users: map<int, User>, name: string, id: int)
    requires UniqueUsernames(users)
    requires id in users && users[id].username == name
    ensures UserByUsername(users, name) == Some(Row(id, users[id]))
  {
  }

  /** The rows of the listed ids, in the listed order. */
  function RowsOf(users: map<int, User>, ids: seq<int>): (r: seq<Row>)
    requires forall i :: 0 <= i < |ids| ==> ids[i] in users
    ensures |r| == |ids|
    ensures forall i :: 0 <= i < |r| ==> r[i] == Row(ids[i], users[ids[i]])
  {
    if ids == [] then [] else [Row(ids[0], users[ids[0]])] + RowsOf(users, ids[1..])
  }

  /** A row is listed exactly when its id is listed and it holds that id's user. */
  lemma RowsOfMembership(users: map<int, User>, ids: seq<int>, row: Row)
    requires forall i :: 0 <= i < |ids| ==> ids[i] in users
    ensures row in RowsOf(users, ids) <==> row.id in ids && users[row.id] == row.user
  {
  }

  /** `User.query.all()`: every user once, in ascending id order. */
  function AllUsers(users: map<int, User>): (r: seq<Row>)
    ensures forall row :: row in r <==> row.id in users && users[row.id] == row.user
    ensures forall i, j :: 0 <= i < j < |r| ==> r[i].id < r[j].id
    ensures |r| == |users|
  {
    var ids := Ascending(users.Keys);
    var r := RowsOf(users, ids);
    assert forall row: Row :: row in r <==> row.id in users && users[row.id] == row.user by {
      forall row: Row ensures row in r <==> row.id in users && users[row.id] == row.user {
        RowsOfMembership(users, ids, row);
      }
    }
    r
  }

  /** The transactions whose `user_id` is `id`. */
  function OwnedBy(txOwner: map<int, int>, id: int): (txs: set<int>)
    ensures forall tx :: tx in txs <==> tx in txOwner && txOwner[tx] == id
  {
    set tx | tx in txOwner && txOwner[tx] == id
  }

  /** What the user display prints: the not-found line, or the user's fields. */
  datatype Report =
    | Missing
    | Report(id: int, username: string, balance: real, transactions: nat)

  /** `print_user_info(user)`, with the transactions taken from the Transaction table. */
  function UserReport(t: Tables, user: Option<Row>): (r: Report)
    ensures r.Missing? <==> user.None?
    ensures r.Report? ==> r.id == user.value.id && r.username == user.value.user.username
    ensures r.Report? ==> r.balance == user.value.user.balance
    ensures r.Report? ==> r.transactions == |OwnedBy(t.txOwner, user.value.id)|
  {
    match user
    case None => Missing
    case Some(row) => Report(row.id, row.user.username, row.user.balance, |OwnedBy(t.txOwner, row.id)|)
  }
}

=== FILE: store.dfy ===
/**
 * The store the user operations work on: a User table keyed by id and a
 * Transaction table, of which only each transaction's owner (`user_id`)
 * matters here.  A `Database` is one session over the store: the rows
 * the session sees, pending changes included, and the last committed
 * state.  Commit makes the session's rows the committed state; rollback
 * discards the pending changes.
 */
module Store {
  import opened Ids

  /** One account holder; `password` holds the hashed password. */
  datatype User = User(username: string, password: string, balance: real)

  /** A user together with its id, as the queries return it. */
  datatype Row = Row(id: int, user: User)

  /** The two tables: users by id, and each transaction's owning user id. */
  datatype Tables = Tables(users: map<int, User>, txOwner: map<int, int>)

  /** The operation during which the store raised. */
  datatype Op = Creating | Updating | Deleting

  datatype Failure =
    | NotFound
    | UsernameTaken
    | NoChanges
    | StoreError(op: Op)

  datatype Result<+T> = Ok(value: T) | Err(error: Failure)

  /** What an operation reports, and the committed tables afterwards. */
  datatype Step<+T> = Step(result: Result<T>, after: Tables)

  /** The message text the operations return with `False`; for a store error only its prefix. */
  function Message(f: Failure): string {
    match f
    case NotFound => "User not found"
    case UsernameTaken => "Username already exists"
    case NoChanges => "No changes specified"
    case StoreError(Creating) => "Error creating user: "
    case StoreError(Updating) => "Error updating user: "
    case StoreError(Deleting) => "Error deleting user: "
  }

  /** Each failure has its own message, so a caller can tell them apart by the text alone. */
  lemma MessagesDistinguishFailures(f: Failure, g: Failure)
    ensures Message(f) == Message(g) ==> f == g
  {
  }

  /** No two users share a username. */
  predicate UniqueUsernames(users: map<int, User>) {
    forall a, b :: a in users && b in users && users[a].username == users[b].username ==> a == b
  }

  /** Some user holds `name`. */
  predicate Taken(users: map<int, User>, name: string) {
    exists id :: id in users && users[id].username == name
  }

  /** Every transaction belongs to a stored user (the foreign key `user_id`). */
  predicate OwnersExist(t: Tables) {
    forall tx :: tx in t.txOwner ==> t.txOwner[tx] in t.users
  }

  predicate Valid(t: Tables) {
    UniqueUsernames(t.users) && OwnersExist(t)
  }

  /**
   * The id the store gives the next inserted user: one more than the
   * largest id in use, or 1 when no positive id is in use.
   */
  function NextId(users: map<int, User>): (id: int)
    ensures id !in users && id >= 1
    ensures forall k :: k in users ==> k < id
  {
    assert 0 in users.Keys + {0};
    MaxOf(users.Keys + {0}) + 1
  }

  /** A session over the store. */
  class Database {
    /** The users the session sees, pending changes included. */
    var users: map<int, User>
    /** The transactions the session sees, pending deletions applied. */
    var txOwner: map<int, int>
    /** The state of the store as last committed. */
    var committed: Tables

    function Session(): Tables
      reads this
    {
      Tables(users, txOwner)
    }

    /** The session holds no pending change. */
    predicate Clean()
      reads this
    {
      Session() == committed
    }

    constructor (t: Tables)
      ensures committed == t && Clean()
    {
      users := t.users;
      txOwner := t.txOwner;
      committed := t;
    }

    /** `db.session.commit()`; `ok` is whether the store accepts it. */
    method Commit(ok: bool) returns (success: bool)
      modifies this
      ensures success == ok
      ensures Session() == old(Session())
      ensures committed == if ok then old(Session()) else old(committed)
    {
      success := ok;
      if ok {
        committed := Session();
      }
    }

    /** `db.session.rollback()`: the pending changes are discarded. */
    method Rollback()
      modifies this
      ensures Clean() && committed == old(committed)
    {
      users := committed.users;
      txOwner := committed.txOwner;
    }
  }
}

=== FILE: update.dfy ===
/**
 * Updating a user: any of username, password and balance may be given;
 * a new username must not be held by another user; the given fields are
 * written into the session one after the other and committed together,
 * and a failure after a write rolls every write back.
 */
module Update {
  import opened Options
  import opened Coerce
  import opened Store
  import opened Read

  /** The recognised keyword arguments; any other keyword is ignored. */
  datatype Changes = Changes(username: Option<string>, password: Option<string>, balance: Option<PyValue>)

  predicate NoFields(c: Changes) {
    c.username.None? && c.password.None? && c.balance.None?
  }

  /** A user other than `id` holds `name`. */
  predicate HeldByOther(users: map<int, User>, name: string, id: int) {
    exists other :: other in users && other != id && users[other].username == name
  }

  /** The rename check: the first user holding `name` is not user `id`. */
  predicate Conflict(users: map<int, User>, name: string, id: int) {
    var existing := UserByUsername(users, name);
    existing.Some? && existing.value.id != id
  }

  /** A failed `float` on a given balance. */
  predicate BadBalance(c: Changes) {
    c.balance.Some? && ToFloat(c.balance.value).None?
  }

  /** The user after the given fields are written. */
  function Apply(user: User, c: Changes, hash: string -> string): User
    requires !BadBalance(c)
  {
    var renamed := if c.username.Some? then user.(username := c.username.value) else user;
    var rehashed := if c.password.Some? then renamed.(password := hash(c.password.value)) else renamed;
    if c.balance.Some? then rehashed.(balance := ToFloat(c.balance.value).value) else rehashed
  }

  /** `after` differs from `before` in exactly the fields `c` supplies, as written. */
  predicate OnlyGivenFieldsChange(before: User, c: Changes, hash: string -> string, after: User) {
    && after.username == (if c.username.Some? then c.username.value else before.username)
    && after.password == (if c.password.Some? then hash(c.password.value) else before.password)
    && (c.balance.None? ==> after.balance == before.balance)
    && (c.balance.Some? ==> ToFloat(c.balance.value) == Some(after.balance))
  }

  /** What updating user `id` reports and leaves committed. */
  function UpdateOutcome(t: Tables, id: int, c: Changes, hash: string -> string, commitOk: bool): (s: Step<Row>)
    ensures s.result.Err? ==> s.after == t
    ensures s.result == Err(NotFound) <==> id !in t.users
    ensures s.result == Err(UsernameTaken) <==>
      id in t.users && c.username.Some? && Conflict(t.users, c.username.value, id)
    ensures s.result == Err(UsernameTaken) ==>
      id in t.users && c.username.Some? && HeldByOther(t.users, c.username.value, id)
    ensures s.result == Err(NoChanges) <==> id in t.users && NoFields(c)
    ensures s.result == Err(StoreError(Updating)) <==>
      id in t.users && !(c.username.Some? && Conflict(t.users, c.username.value, id)) && (BadBalance(c) || (!NoFields(c) && !commitOk))
    ensures s.result.Ok? <==>
      id in t.users && !(c.username.Some? && Conflict(t.users, c.username.value, id))
      && !BadBalance(c) && !NoFields(c) && commitOk
    ensures s.result.Ok? ==>
      && id in t.users
      && s.result.value.id == id
      && OnlyGivenFieldsChange(t.users[id], c, hash, s.result.value.user)
      && s.after == Tables(t.users[id := s.result.value.user], t.txOwner)
  {
    if id !in t.users then Step(Err(NotFound), t)
    else if c.username.Some? && Conflict(t.users, c.username.value, id) then Step(Err(UsernameTaken), t)
    else if BadBalance(c) then Step(Err(StoreError(Updating)), t)
    else if NoFields(c) then Step(Err(NoChanges), t)
    else if !commitOk then Step(Err(StoreError(Updating)), t)
    else
      var user := Apply(t.users[id], c, hash);
      Step(Ok(Row(id, user)), Tables(t.users[id := user], t.txOwner))
  }

  /** `update_user(db, User, user_id, **kwargs)`. */
  method UpdateUser(db: Database, userId: int, c: Changes, hash: string -> string, commitOk: bool)
    returns (r: Result<Row>)
    requires db.Clean()
    modifies db
    ensures db.Clean()
    ensures Step(r, db.committed) == UpdateOutcome(old(db.committed), userId, c, hash, commitOk)
  {
    if userId !in db.users {
      return Err(NotFound);
    }
    var changesMade := false;
    if c.username.Some? {
      var newUsername := c.username.value;
      var existing := UserByUsername(db.users, newUsername);
      if existing.Some? && existing.value.id != userId {
        return Err(UsernameTaken);
      }
      db.users := db.users[userId := db.users[userId].(username := newUsername)];
      changesMade := true;
    }
    if c.password.Some? {
      db.users := db.users[userId := db.users[userId].(password := hash(c.password.value))];
      changesMade := true;
    }
    if c.balance.Some? {
      var balance := ToFloat(c.balance.value);
      if balance.None? {
        db.Rollback();
        return Err(StoreError(Updating));
      }
      db.users := db.users[userId := db.users[userId].(balance := balance.value)];
      changesMade := true;
    }
    if !changesMade {
      return Err(NoChanges);
    }
    assert db.users == old(db.users)[userId := Apply(old(db.users)[userId], c, hash)];
    var committed := db.Commit(commitOk);
    if !committed {
      db.Rollback();
      return Err(StoreError(Updating));
    }
    r := Ok(Row(userId, db.users[userId]));
  }

  /** Under unique usernames, the rename check fails exactly when another user holds the name. */
  lemma ConflictMeansHeldByOther(users: map<int, User>, name: string, id: int)
    requires UniqueUsernames(users)
    ensures Conflict(users, name, id) <==> HeldByOther(users, name, id)
  {
  }

  /** Renaming a user to its own current name is not a conflict, and changes nothing. */
  lemma RenameToOwnName(t: Tables, id: int, hash: string -> string)
    requires UniqueUsernames(t.users) && id in t.users
    ensures var s := UpdateOutcome(t, id, Changes(Some(t.users[id].username), None, None), hash, true);
      s.result == Ok(Row(id, t.users[id])) && s.after == t
  {
  }

  /** Updating a user keeps usernames unique and every transaction's owner stored. */
  lemma UpdatePreservesValid(t: Tables, id: int, c: Changes, hash: string -> string, commitOk: bool)
    requires Valid(t)
    ensures Valid(UpdateOutcome(t, id, c, hash, commitOk).after)
  {
  }

  /** A supplied balance is what a later lookup by id returns, all else kept. */
  lemma BalanceUpdateIsRead(t: Tables, id: int, v: PyValue, x: real, hash: string -> string)
    requires id in t.users && ToFloat(v) == Some(x)
    ensures var s := UpdateOutcome(t, id, Changes(None, None, Some(v)), hash, true);
      UserById(s.after.users, id) == Some(t.users[id].(balance := x))
  {
  }

  /** With no recognised field the update reports NoChanges and changes nothing. */
  lemma NoFieldsNoChange(t: Tables, id: int, hash: string -> string, commitOk: bool)
    requires id in t.users
    ensures UpdateOutcome(t, id, Changes(None, None, None), hash, commitOk) == Step(Err(NoChanges), t)
  {
  }

  /** A rename onto a name another user holds is refused and changes nothing, whatever else is given. */
  lemma RenameOntoOtherFails(t: Tables, id: int, c: Changes, hash: string -> string, commitOk: bool)
    requires UniqueUsernames(t.users) && id in t.users
    requires c.username.Some? && HeldByOther(t.users, c.username.value, id)
    ensures UpdateOutcome(t, id, c, hash, commitOk) == Step(Err(UsernameTaken), t)
  {
  }
}
